=== FILE: README.md ===
# School feedback processor — verified model

A Dafny model of the Netlify function `netlify/functions/process.js`, which
receives form-submitted school feedback, asks a chat-completion model to
classify it (categories, an offensive-language flag, a short summary),
builds an e-mail subject from that classification, mails the feedback
through SendGrid and answers the HTTP request.

The model has two parts.

* **Classification and subject** (`classification.dfy`, `subject_line.dfy`,
  `js_string.dfy`). The reply content is trimmed, and the text `{}` stands in
  when it is missing or blank. `JSON.parse` is an oracle
  `string -> ParseResult`. A syntax error gives the fixed default
  `(["other"], false, "")`. Reading the result throws a `TypeError` when
  it is `null`, when `categories` is present but not an array, or when a
  category element cannot be converted to a string. Otherwise each missing field takes its destructuring
  default. The subject is one `[cat]` tag per category, then
  `[contains bad words]` when offensive, with `[other]` when that label
  string is empty. Then comes a space, then the summary or `New Feedback`,
  and the whole is trimmed with the ECMAScript white-space set.
* **Handler decision flow** (`handler.dfy`). This is a pure function of
  five things: the request (method and `feedback` field), the two secrets,
  the outcome of the chat call, the outcome of the mail send, and the
  `JSON.parse` oracle applied to the reply content. It returns
  the response and the trace of outbound calls made. The checks run in
  source order: the method (405), the OpenAI key, the chat call, the
  response status (its error text is read before answering 500),
  classification, the SendGrid key, and the send (500 on
  each failure). After all of them comes the 200 response.

`wrappers.dfy` holds the `Option`/`Result` types the other modules share.

Three behaviours of the code are easy to miss, and the model follows the
code each time:

* `[other]` is used only when the label string is empty. Offensive feedback
  with no categories gets `[contains bad words]` and no `[other]`.
* A secret that is set but empty counts as missing, because JavaScript's
  `!key` is true for `''`.
* Line 142 of `process.js` holds a stray `}),` after the success response,
  so the file as written does not parse. The model returns the 200
  response built at lines 139-141, which is evidently what was intended.

One consequence of the code is proved rather than hidden. A summary made
only of white space is truthy, so it does not get the `New Feedback`
fallback, and trimming then leaves the bare label prefix
(`BlankSummaryDropsText`).

## Model

| member | source | states |
|---|---|---|
| JsString.TrimStart | netlify/functions/process.js:97 | the result is the longest suffix whose first character is not ECMAScript white space; everything removed is white space |
| JsString.TrimEnd | netlify/functions/process.js:97 | the result is the longest prefix whose last character is not white space; everything removed is white space |
| JsString.Trim | netlify/functions/process.js:74 | `trim()` yields a slice of the input with only white space on either side, and the slice neither starts nor ends with white space |
| JsString.TrimEmptyIffBlank | netlify/functions/process.js:74 | trimming yields the empty string exactly when the content is blank, which is when the `'{}'` fallback applies |
| JsString.TrimEndAppend | netlify/functions/process.js:97 | trailing white space of `a + b` is that of `b`, unless `b` is all white space, in which case trimming continues into `a` |
| JsString.TrimAfterWord | netlify/functions/process.js:97 | trimming `word + " " + text`, where `word` has no white space at either end, keeps `word` and drops only the trailing white space of `text`, plus the space when nothing of `text` remains |
| SubjectLine.Tag | netlify/functions/process.js:91 | no contract of its own: the callback ``cat => `[${cat}]` `` ; TagShape states its shape |
| SubjectLine.TagShape | netlify/functions/process.js:91 | a tag is its category between `[` and `]`, two characters longer, and the category reads back from between the brackets |
| SubjectLine.Tags | netlify/functions/process.js:91 | the tags are empty iff there are no categories; otherwise they start with `[` and end with `]`, and each category adds at least its two brackets |
| SubjectLine.TagsAppend | netlify/functions/process.js:91 | the tags of a concatenation are the concatenated tags: one tag per category, in input order, duplicates kept |
| SubjectLine.ParseTagsOfTags | netlify/functions/process.js:91 | round trip: reading the tags of categories that contain no `]` gives back exactly those categories, in order and with duplicates |
| SubjectLine.TagsOfParseTags | netlify/functions/process.js:91 | converse round trip: any run of tags that reads back is reproduced exactly by the tag builder |
| SubjectLine.VocabularyRoundTrips | netlify/functions/process.js:39-40 | any list of categories drawn from the prompt's six labels reads back from its tags exactly, in order and with duplicates |
| SubjectLine.LabelsReadBack | netlify/functions/process.js:91-94 | reading the labels back gives the categories in order, with duplicates, followed by `contains bad words` exactly when offensive; so the bad-words tag comes after every category tag and is absent when not offensive (categories containing `]` excepted) |
| SubjectLine.PrefixFallback | netlify/functions/process.js:97 | the prefix is `[other]` when there are no categories and the feedback is not offensive, and the labels otherwise |
| SubjectLine.Labels | netlify/functions/process.js:91-94 | `subjectLabels` is empty iff there are no categories and the feedback is not offensive; when offensive it ends with `[contains bad words]`; when non-empty it starts with `[` and ends with `]`; read back in full by LabelsReadBack |
| SubjectLine.SummaryText | netlify/functions/process.js:97 | the summary, or `New Feedback` when it is empty, is never empty, and a non-empty summary is kept unchanged |
| SubjectLine.OffensiveWithoutCategories | netlify/functions/process.js:91-97 | with no categories but offensive, the prefix is `[contains bad words]` alone, with no `[other]` |
| SubjectLine.Prefix | netlify/functions/process.js:97 | the labels, or `[other]` when they are empty, is never empty, starts with `[` and ends with `]`; which of the two it is, is stated by PrefixFallback |
| SubjectLine.SubjectStartsWithPrefix | netlify/functions/process.js:97 | whatever the summary, the subject begins with the label prefix |
| SubjectLine.Subject | netlify/functions/process.js:97 | the subject is the prefix, plus a space and the summary text with trailing white space removed when any text remains; it is non-empty and starts with `[` |
| SubjectLine.SubjectShape | netlify/functions/process.js:97 | trimming `prefix + " " + text` only ever removes trailing white space of the summary text |
| SubjectLine.EmptySummaryFallback | netlify/functions/process.js:96-97 | an empty summary gives the subject `prefix + " New Feedback"` |
| SubjectLine.TrimmedSummaryKept | netlify/functions/process.js:97 | a summary that does not end in white space appears verbatim after one space |
| SubjectLine.BlankSummaryDropsText | netlify/functions/process.js:96-97 | a non-empty, all-white-space summary skips the `New Feedback` fallback, and the subject is the bare prefix |
| SubjectLine.SubjectExampleOffensive | netlify/functions/process.js:89 | `["complaint"]`, offensive, `"broken locker"` gives `[complaint][contains bad words] broken locker` |
| SubjectLine.SubjectExampleDefaultSummary | netlify/functions/process.js:91-97 | `["praise","administrative"]`, not offensive, empty summary gives `[praise][administrative] New Feedback` |
| SubjectLine.UnlabelledSubject | netlify/functions/process.js:83-97 | no categories, not offensive, empty summary gives exactly `[other] New Feedback`; so does the parse-failure default `["other"]` |
| Classification.RawContent | netlify/functions/process.js:74 | the text to parse is never empty: `{}` for missing or blank content, otherwise the trimmed content, with no white space at either end |
| Classification.Classify | netlify/functions/process.js:78-86 | a syntax error gives the default classification; it throws iff the parse gives `null`, a non-array `categories`, or a `categories` array with an element whose string conversion throws; otherwise each present field is taken as given and each absent one gets its default, and offensive holds iff the parsed flag is `true` |
| Classification.BlankReplyTakesDefaults | netlify/functions/process.js:74-86 | missing or blank content is read as `{}`, and every field takes its default: `[]`, `false`, `''` |
| Classification.UnconvertibleCategoryThrows | netlify/functions/process.js:91 | a `categories` array with one element whose string conversion throws (such as `{"toString":1}`) makes classification fail with a `TypeError`, whatever the other elements are |
| Classification.UnparseableReplyIsOther | netlify/functions/process.js:79-84 | content that fails to parse classifies as `categories=["other"], offensive=false, summary=""` |
| Handler.FeedbackText | netlify/functions/process.js:16 | the feedback text is the form field when present and `''` when absent; EmptyFeedbackStillSent follows the absent case through |
| Handler.Configured | netlify/functions/process.js:20 | the `!KEY` check: an absent key and the empty string both count as missing, any other string as configured (the same check guards the SendGrid key at :101) |
| Handler.FeedbackEmail | netlify/functions/process.js:112-116 | the send payload goes to and from `info@schoolfeedback.org`, carries the composed subject, and its text is `Feedback content:\n\n` followed by the unmodified feedback |
| Handler.ServerError | netlify/functions/process.js:146-151 | the catch-all response has status 500, and its body is `Server Error: ` followed by the error's text |
| Handler.Handle | netlify/functions/process.js:6-152 | status is 200, 405 or 500; 405 iff the method is not POST; outbound calls are nothing, the chat call, or the chat call then one send; any call needs POST and an OpenAI key; a send needs the SendGrid key and a chat reply; 200 needs the send to succeed |
| Handler.WellOrderedSendsAfterChat | netlify/functions/process.js:27-119 | in any trace the handler can produce, a mail send is the last effect, comes after the chat call, and is the only send |
| Handler.NonPostRefused | netlify/functions/process.js:9-11 | a method other than POST gets 405 with no key check and no outbound call |
| Handler.MissingOpenAiKeyFails | netlify/functions/process.js:19-22 | a POST without an OpenAI key gets 500 and makes no outbound call |
| Handler.ChatNotOkFails | netlify/functions/process.js:63-69 | a chat response that is not ok gives 500 after exactly the chat call; no mail is sent |
| Handler.ChatNotOkTextUnreadableFails | netlify/functions/process.js:64 | when reading a not-ok response's error text rejects, the catch-all answers 500 with `Server Error: <err>` after exactly the chat call; no mail is sent |
| Handler.SendGridKeyCheckedAfterChat | netlify/functions/process.js:100-103 | a missing SendGrid key gives 500 only after the chat call has been made, and no send happens |
| Handler.ClassifyErrorIsServerError | netlify/functions/process.js:146-151 | a reply that throws while being read gives the catch-all 500 before the SendGrid key is looked at |
| Handler.MailRejectedFails | netlify/functions/process.js:112-119 | a rejected send gives 500 with body `Server Error: <err>`, after the chat call and one attempted send |
| Handler.SuccessBodyNamesRecipient | netlify/functions/process.js:139-141 | the success body contains `info@schoolfeedback.org` |
| Handler.SuccessIff | netlify/functions/process.js:105-143 | the status is 200 iff every step succeeds; then the body names the recipient, and the effects are the chat call on the feedback followed by exactly one send of `"Feedback content:\n\n" + feedback` under the classified subject |
| Handler.EmptyFeedbackStillSent | netlify/functions/process.js:15-16 | a POST with no `feedback` field and no reply content still yields 200 and one send with subject `[other] New Feedback` and text `Feedback content:\n\n` |
| Handler.UnparseableReplyStillSent | netlify/functions/process.js:79-84 | unparseable reply content still yields 200 and a send under the subject `[other] New Feedback` |

## Left out

- Network I/O is not modelled. The `fetch` to the chat-completion endpoint and SendGrid's `send` each become an oracle outcome (`ChatOutcome`, `MailOutcome`), and the calls made are recorded as `Effect`s. SendGrid's `setApiKey` at `process.js:105` is left out entirely: it is neither an outcome nor an `Effect`. It only hands the key to the SendGrid library for the later `send`, whose code is not part of this model. The chat request's system prompt text and headers are not modelled.
- `querystring.parse` is not modelled, and neither is the `event.body || ''` default. The handler takes the decoded `feedback` field directly, present or absent. An array-valued `feedback` from a repeated form key is not modelled.
- `JSON.parse` is an oracle. Its only assumed property is that `{}` parses to the empty object (`ParsesEmptyObject`), and only the lemmas that need it require it.
- Classification.Classify: an element of `categories` is modelled only as converting to a given string or throwing (`Element`). Which JSON values convert to which strings is not spelled out; for example, numbers and nested arrays are not modelled. Non-boolean `offensive` and non-string `summary` values, with JavaScript's truthiness coercion, are not modelled.
- Non-string message content, whose `.trim()` would throw, is not modelled. A reply without `choices[0].message.content` is `Replied(None)`.
- Handler.ClassifyErrorIsServerError: the 500 body is modelled as `Server Error: TypeError`. The engine's full `TypeError` message text is not modelled.
- Reading secrets from the environment is modelled as the `Env` parameter. Logging is left out, including the logging of the OpenAI key and of the raw reply. It is I/O, and logging the key is a defect rather than behaviour to keep.
- Strings are Dafny strings, which are sequences of Unicode scalar values. JavaScript strings are sequences of UTF-16 code units, so a lone surrogate cannot be represented; one can arise from a `\ud800` escape in the reply JSON. Trimming and concatenation agree with JavaScript on every string that can be represented.
- Concurrent invocations are not modelled, since each invocation is independent.

=== FILE: classification.dfy ===
/** Turning the language model's reply into a classification: the blank
    reply fallback, best-effort JSON parsing with a fixed default, and the
    destructuring defaults of the three fields. */
module Classification {
  import opened Wrappers
  import opened JsString

  /** An element of a parsed `categories` array as template interpolation
      sees it: either it converts to the string `text`, or its conversion
      throws a `TypeError`. The conversion throws for an object whose own
      `toString` property is not callable, such as `{"toString":1}`,
      because its inherited `valueOf` returns the object itself and no
      primitive is found. */
  datatype Element = Converts(text: string) | ConversionThrows

  /** The `categories` property of the parsed reply: an array, or any other
      non-`undefined` value, on which `.map` throws. */
  datatype CategoriesValue = ArrayOf(items: seq<Element>) | NotAnArray

  /** Every element of `items` converts to a string. */
  predicate AllConvert(items: seq<Element>) {
    forall i :: 0 <= i < |items| ==> items[i].Converts?
  }

  /** The strings the elements of `items` convert to, in order. */
  function Texts(items: seq<Element>): (r: seq<string>)
    requires AllConvert(items)
    ensures |r| == |items|
    ensures forall i :: 0 <= i < |items| ==> r[i] == items[i].text
  {
    if items == [] then [] else [items[0].text] + Texts(items[1..])
  }

  /** What `JSON.parse` returned. `JsonNull` is `null`, whose destructuring
      throws; every other value is read through its three properties, each
      absent (`undefined`) or present. A primitive or an array has all
      three absent. */
  datatype JsonValue =
    | JsonNull
    | JsonObject(categories: Option<CategoriesValue>, offensive: Option<bool>, summary: Option<string>)

  /** `JSON.parse` either throws a syntax error or returns a value. */
  datatype ParseResult = SyntaxError | Parsed(value: JsonValue)

  /** The classification the subject is built from. */
  datatype Classification = Classification(categories: seq<string>, offensive: bool, summary: string)

  /** An exception thrown while reading the parsed reply. */
  datatype Thrown = TypeError

  const EmptyObjectText: string := "{}"
  const EmptyObject: JsonValue := JsonObject(None, None, None)

  /** The classification used when the reply is not valid JSON. */
  const ParseFailureDefault: Classification := Classification(["other"], false, "")

  /** `JSON.parse` as far as this model relies on it: the text `{}` is the
      empty object. */
  predicate ParsesEmptyObject(parse: string -> ParseResult) {
    parse(EmptyObjectText) == Parsed(EmptyObject)
  }

  /** Reading this parsed value's properties throws: its `categories` is
      present but either not an array or an array holding an element whose
      string conversion throws. */
  predicate Throws(v: JsonValue) {
    && v.JsonObject?
    && v.categories.Some?
    && (v.categories.value.NotAnArray? || !AllConvert(v.categories.value.items))
  }

  /** `c` holds what `v` holds, each property absent from `v` replaced by
      its default: no categories, not offensive, empty summary. */
  predicate ReadsFields(v: JsonValue, c: Classification) {
    && v.JsonObject?
    && (v.categories.None? ==> c.categories == [])
    && (v.categories.Some? && v.categories.value.ArrayOf? ==>
          AllConvert(v.categories.value.items) && c.categories == Texts(v.categories.value.items))
    && (c.offensive <==> v.offensive == Some(true))
    && (v.summary.None? ==> c.summary == [])
    && (v.summary.Some? ==> c.summary == v.summary.value)
  }

  /** The text handed to `JSON.parse`: the reply content trimmed, or `{}`
      when there is no content or the trimmed content is empty. */
  function RawContent(content: Option<string>): (r: string)
    ensures r != []
    ensures content.None? || IsBlank(content.value) ==> r == EmptyObjectText
    ensures content.Some? && !IsBlank(content.value) ==>
              && |r| <= |content.value|
              && (exists i :: SliceBetweenBlanks(content.value, r, i))
              && !IsWhiteSpace(r[0]) && !IsWhiteSpace(r[|r| - 1])
  {
    match content
    case None => EmptyObjectText
    case Some(text) =>
      TrimEmptyIffBlank(text);
      var t := Trim(text);
      if t == [] then EmptyObjectText else t
  }

  /** The classification of a reply whose content is `content`, with
      `parse` standing for `JSON.parse`. A syntax error yields the fixed
      default; a `null`, a non-array `categories` or a category whose
      string conversion throws gives a `TypeError`; otherwise each absent
      field takes its default (`[]`, `false`, `''`). */
  function Classify(content: Option<string>, parse: string -> ParseResult): (r: Result<Classification, Thrown>)
    ensures var p := parse(RawContent(content));
            p == SyntaxError ==> r == Success(ParseFailureDefault)
    ensures var p := parse(RawContent(content));
            r.Failure? <==> p == Parsed(JsonNull) || (p.Parsed? && Throws(p.value))
    ensures var p := parse(RawContent(content));
            p.Parsed? && r.Success? ==> ReadsFields(p.value, r.value)
  {
    match parse(RawContent(content))
    case SyntaxError => Success(ParseFailureDefault)
    case Parsed(JsonNull) => Failure(TypeError)
    case Parsed(JsonObject(categories, offensive, summary)) =>
      match categories.GetOr(ArrayOf([]))
      case NotAnArray => Failure(TypeError)
      case ArrayOf(items) =>
        if !AllConvert(items) then Failure(TypeError)
        else Success(Classification(Texts(items), offensive.GetOr(false), summary.GetOr("")))
  }

  /** A reply with no content, or only white space, is read as `{}`, so
      every field takes its default. */
  lemma BlankReplyTakesDefaults(content: Option<string>, parse: string -> ParseResult)
    requires ParsesEmptyObject(parse)
    requires content.None? || IsBlank(content.value)
    ensures Classify(content, parse) == Success(Classification([], false, ""))
  {
  }

  /** A `categories` array holding even one element whose string
      conversion throws makes reading the reply throw, whatever the other
      elements and fields are. */
  lemma UnconvertibleCategoryThrows(content: Option<string>, parse: string -> ParseResult,
                                    items: seq<Element>, i: int)
    requires parse(RawContent(content)).Parsed?
    requires parse(RawContent(content)).value.JsonObject?
    requires parse(RawContent(content)).value.categories == Some(ArrayOf(items))
    requires 0 <= i < |items| && items[i] == ConversionThrows
    ensures Classify(content, parse) == Failure(TypeError)
  {
  }

  /** A reply that is not valid JSON still classifies, as `other`. */
  lemma UnparseableReplyIsOther(content: Option<string>, parse: string -> ParseResult)
    requires parse(RawContent(content)) == SyntaxError
    ensures Classify(content, parse) == Success(Classification(["other"], false, ""))
  {
  }
}

=== FILE: handler.dfy ===
/** The request handler's decision flow: the method guard, the two
    configuration checks, the chat call, classification, the mail send and
    the catch-all error boundary. Network calls are oracle inputs and the
    outbound calls made are recorded as a trace of effects. */
module Handler {
  import opened Wrappers
  import opened SubjectLine
  import opened Classification

  /** The part of the inbound event the handler reads: the HTTP method and
      the `feedback` form field after URL-decoding (absent when the body
      has no such key). */
  datatype Request = Request(httpMethod: string, feedback: Option<string>)

  /** The two secrets read from the environment. */
  datatype Env = Env(openAiKey: Option<string>, sendGridKey: Option<string>)

  /** How the chat-completion call turned out: `fetch` rejected; the
      response was not ok and its error text was read for the log, or
      reading that text rejected; an ok body was not JSON; or it was read
      and held (or did not hold) a first choice's message content. */
  datatype ChatOutcome =
    | FetchRejected(fetchError: string)
    | NotOk
    | NotOkBodyUnreadable(textError: string)
    | BodyUnreadable(bodyError: string)
    | Replied(content: Option<string>)

  /** How the mail send turned out: accepted, or rejected with the error
      whose string form is `sendError`. */
  datatype MailOutcome = Sent | SendRejected(sendError: string)

  /** Everything outside the handler's own code that decides its outcome. */
  datatype Oracles = Oracles(chat: ChatOutcome, mail: MailOutcome, parse: string -> ParseResult)

  datatype Email = Email(to: string, from: string, subject: string, text: string)

  /** An outbound call the handler makes. */
  datatype Effect =
    | ChatCall(apiKey: string, model: string, maxTokens: nat, userMessage: string)
    | MailSend(email: Email)

  datatype Response = Response(statusCode: nat, body: string)

  datatype Outcome = Outcome(response: Response, effects: seq<Effect>)

  const ChatModel: string := "gpt-3.5-turbo"
  const MaxTokens: nat := 200
  const ToEmail: string := "info@schoolfeedback.org"
  const FromEmail: string := "info@schoolfeedback.org"
  const MailTextLabel: string := "Feedback content:\n\n"
  const ServerErrorPrefix: string := "Server Error: "
  const MethodNotAllowedBody: string := "Method Not Allowed: Use POST"
  const OpenAiKeyMissingBody: string := "OpenAI API Key not configured"
  const ChatErrorBody: string := "OpenAI API error, please try again later"
  const SendGridKeyMissingBody: string := "SendGrid API Key not configured"
  const SuccessLead: string :=
    "<HTML><body>Thank you! Your feedback has been submitted, processed, AI-labeled, and an email has been sent to "
  const SuccessBody: string :=
    SuccessLead + ToEmail + " <a href=\"/index.html\">Back to the main page</a></body></html>"

  /** A secret is usable when it is present and not the empty (falsy)
      string. */
  function Configured(key: Option<string>): (ok: bool)
    ensures key.None? ==> !ok
    ensures key == Some("") ==> !ok
    ensures key.Some? && key.value != "" ==> ok
  {
    key.Some? && key.value != []
  }

  /** The feedback text: the form field, or `''` when it is absent. */
  function FeedbackText(req: Request): (r: string)
    ensures req.feedback.Some? ==> r == req.feedback.value
    ensures req.feedback.None? ==> r == ""
  {
    req.feedback.GetOr("")
  }

  /** The string form of a thrown classification error. */
  function ThrownText(e: Thrown): string {
    match e
    case TypeError => "TypeError"
  }

  /** The catch-all boundary's response to an exception. */
  function ServerError(err: string): (r: Response)
    ensures r.statusCode == 500
    ensures |r.body| >= |ServerErrorPrefix| && r.body[..|ServerErrorPrefix|] == ServerErrorPrefix
    ensures r.body[|ServerErrorPrefix|..] == err
  {
    Response(500, ServerErrorPrefix + err)
  }

  /** The e-mail sent for `feedback` classified as `c`. */
  function FeedbackEmail(c: Classification, feedback: string): (r: Email)
    ensures r.to == ToEmail && r.from == FromEmail
    ensures r.subject == Subject(c.categories, c.offensive, c.summary)
    ensures |r.text| == |MailTextLabel| + |feedback|
    ensures r.text[..|MailTextLabel|] == MailTextLabel && r.text[|MailTextLabel|..] == feedback
  {
    Email(ToEmail, FromEmail, Subject(c.categories, c.offensive, c.summary), MailTextLabel + feedback)
  }

  /** The handler, step by step, with each early exit in source order. */
  function Handle(req: Request, env: Env, oracles: Oracles): (o: Outcome)
    ensures o.response.statusCode == 200 || o.response.statusCode == 405 || o.response.statusCode == 500
    ensures o.response.statusCode == 405 <==> req.httpMethod != "POST"
    ensures WellOrdered(o.effects)
    ensures |o.effects| > 0 ==> req.httpMethod == "POST" && Configured(env.openAiKey)
    ensures |o.effects| > 1 ==> Configured(env.sendGridKey) && oracles.chat.Replied?
    ensures o.response.statusCode == 200 ==> |o.effects| == 2 && oracles.mail == Sent
  {
    if req.httpMethod != "POST" then
      Outcome(Response(405, MethodNotAllowedBody), [])
    else if !Configured(env.openAiKey) then
      Outcome(Response(500, OpenAiKeyMissingBody), [])
    else
      var call := ChatCallFor(req, env);
      match oracles.chat
      case FetchRejected(err) => Outcome(ServerError(err), [call])
      case NotOk => Outcome(Response(500, ChatErrorBody), [call])
      case NotOkBodyUnreadable(err) => Outcome(ServerError(err), [call])
      case BodyUnreadable(err) => Outcome(ServerError(err), [call])
      case Replied(content) =>
        match Classify(content, oracles.parse)
        case Failure(e) => Outcome(ServerError(ThrownText(e)), [call])
        case Success(c) =>
          if !Configured(env.sendGridKey) then
            Outcome(Response(500, SendGridKeyMissingBody), [call])
          else
            var send := MailSend(FeedbackEmail(c, FeedbackText(req)));
            match oracles.mail
            case SendRejected(err) => Outcome(ServerError(err), [call, send])
            case Sent => Outcome(Response(200, SuccessBody), [call, send])
  }

  /** The order the handler's outbound calls may take: nothing, the chat
      call alone, or the chat call followed by exactly one mail send. */
  predicate WellOrdered(effects: seq<Effect>) {
    || effects == []
    || (|effects| == 1 && effects[0].ChatCall?)
    || (|effects| == 2 && effects[0].ChatCall? && effects[1].MailSend?)
  }

  /** Every well-ordered trace sends at most one e-mail, and only after a
      chat call. */
  lemma WellOrderedSendsAfterChat(effects: seq<Effect>, i: int)
    requires WellOrdered(effects)
    requires 0 <= i < |effects| && effects[i].MailSend?
    ensures i == |effects| - 1 && i > 0 && effects[0].ChatCall?
    ensures forall j :: 0 <= j < |effects| && j != i ==> !effects[j].MailSend?
  {
  }

  /** `part` occurs in `s` as a contiguous substring. */
  predicate Contains(s: string, part: string) {
    exists i :: 0 <= i <= |s| - |part| && OccursAt(s, part, i)
  }

  predicate OccursAt(s: string, part: string, i: int) {
    0 <= i <= |s| - |part| && s[i..i + |part|] == part
  }

  /** The chat call made for `req` under `env`, once the OpenAI key has
      passed its check. */
  function ChatCallFor(req: Request, env: Env): Effect
    requires Configured(env.openAiKey)
  {
    ChatCall(env.openAiKey.value, ChatModel, MaxTokens, FeedbackText(req))
  }

  /** Every check passes: a POST, both keys set, the chat call replied,
      the reply classified without throwing and the mail was accepted. */
  predicate AllStepsSucceed(req: Request, env: Env, oracles: Oracles) {
    && req.httpMethod == "POST"
    && Configured(env.openAiKey)
    && Configured(env.sendGridKey)
    && oracles.chat.Replied?
    && Classify(oracles.chat.content, oracles.parse).Success?
    && oracles.mail == Sent
  }

  /** Any method other than POST is refused with 405 before anything else
      happens. */
  lemma NonPostRefused(req: Request, env: Env, oracles: Oracles)
    requires req.httpMethod != "POST"
    ensures Handle(req, env, oracles) == Outcome(Response(405, MethodNotAllowedBody), [])
  {
  }

  /** A POST without an OpenAI key fails with 500 and makes no outbound
      call. */
  lemma MissingOpenAiKeyFails(req: Request, env: Env, oracles: Oracles)
    requires req.httpMethod == "POST" && !Configured(env.openAiKey)
    ensures Handle(req, env, oracles) == Outcome(Response(500, OpenAiKeyMissingBody), [])
  {
  }

  /** A chat response that is not ok fails with 500 after the chat call,
      and no mail is sent. */
  lemma ChatNotOkFails(req: Request, env: Env, oracles: Oracles)
    requires req.httpMethod == "POST" && Configured(env.openAiKey) && oracles.chat == NotOk
    ensures Handle(req, env, oracles) == Outcome(Response(500, ChatErrorBody), [ChatCallFor(req, env)])
  {
  }

  /** When reading a not-ok response's error text rejects, the exception
      reaches the catch-all boundary instead: 500 with `Server Error: `
      and the error, after the chat call, and no mail is sent. */
  lemma ChatNotOkTextUnreadableFails(req: Request, env: Env, oracles: Oracles)
    requires req.httpMethod == "POST" && Configured(env.openAiKey) && oracles.chat.NotOkBodyUnreadable?
    ensures Handle(req, env, oracles)
            == Outcome(Response(500, ServerErrorPrefix + oracles.chat.textError), [ChatCallFor(req, env)])
  {
  }

  /** The SendGrid key is checked only after the chat call has been made
      and the reply classified: a missing key fails with 500, but the chat
      call has already happened and no mail is sent. */
  lemma SendGridKeyCheckedAfterChat(req: Request, env: Env, oracles: Oracles)
    requires req.httpMethod == "POST" && Configured(env.openAiKey) && !Configured(env.sendGridKey)
    requires oracles.chat.Replied? && Classify(oracles.chat.content, oracles.parse).Success?
    ensures Handle(req, env, oracles) == Outcome(Response(500, SendGridKeyMissingBody), [ChatCallFor(req, env)])
  {
  }

  /** A reply that throws while being read (a `null`, a `categories` that
      is not an array, or a category that does not convert to a string)
      reaches the catch-all boundary before the SendGrid
      key is looked at, whatever that key is. */
  lemma ClassifyErrorIsServerError(req: Request, env: Env, oracles: Oracles)
    requires req.httpMethod == "POST" && Configured(env.openAiKey)
    requires oracles.chat.Replied? && Classify(oracles.chat.content, oracles.parse).Failure?
    ensures Handle(req, env, oracles) == Outcome(ServerError("TypeError"), [ChatCallFor(req, env)])
  {
  }

  /** A rejected mail send fails with 500 whose body is `Server Error: `
      followed by the error; the send was attempted once. */
  lemma MailRejectedFails(req: Request, env: Env, oracles: Oracles)
    requires req.httpMethod == "POST" && Configured(env.openAiKey) && Configured(env.sendGridKey)
    requires oracles.chat.Replied? && Classify(oracles.chat.content, oracles.parse).Success?
    requires oracles.mail.SendRejected?
    ensures var o := Handle(req, env, oracles);
            && o.response.statusCode == 500
            && o.response.body == ServerErrorPrefix + oracles.mail.sendError
            && |o.effects| == 2 && o.effects[1].MailSend?
  {
  }

  /** The body of the success response names the recipient address. */
  lemma SuccessBodyNamesRecipient()
    ensures Contains(SuccessBody, ToEmail)
  {
    assert OccursAt(SuccessBody, ToEmail, |SuccessLead|);
  }

  /** The request succeeds exactly when every step succeeds; then the
      body names the recipient and exactly two calls were made: the chat
      call with the feedback, then one send of the feedback under the
      classified subject. */
  lemma SuccessIff(req: Request, env: Env, oracles: Oracles)
    ensures Handle(req, env, oracles).response.statusCode == 200 <==> AllStepsSucceed(req, env, oracles)
    ensures AllStepsSucceed(req, env, oracles) ==>
              var o := Handle(req, env, oracles);
              var c := Classify(oracles.chat.content, oracles.parse).value;
              && Contains(o.response.body, ToEmail)
              && o.effects == [ChatCallFor(req, env), MailSend(FeedbackEmail(c, FeedbackText(req)))]
  {
    SuccessBodyNamesRecipient();
  }

  /** A POST without a `feedback` field whose reply carries no content
      still goes out, with the bare label text as body and the subject
      `[other] New Feedback`. */
  lemma EmptyFeedbackStillSent(req: Request, env: Env, oracles: Oracles)
    requires req.httpMethod == "POST" && req.feedback.None?
    requires Configured(env.openAiKey) && Configured(env.sendGridKey)
    requires oracles.chat == Replied(None) && oracles.mail == Sent
    requires ParsesEmptyObject(oracles.parse)
    ensures var o := Handle(req, env, oracles);
            && o.response.statusCode == 200
            && o.effects[1] == MailSend(Email(ToEmail, FromEmail, FallbackSubject, MailTextLabel))
  {
    var c := Classification([], false, "");
    BlankReplyTakesDefaults(None, oracles.parse);
    UnlabelledSubject();
    assert MailTextLabel + FeedbackText(req) == MailTextLabel;
    SuccessIff(req, env, oracles);
  }

  /** A reply that is not valid JSON does not block delivery: the mail goes
      out under the subject `[other] New Feedback`. */
  lemma UnparseableReplyStillSent(req: Request, env: Env, oracles: Oracles)
    requires req.httpMethod == "POST" && Configured(env.openAiKey) && Configured(env.sendGridKey)
    requires oracles.chat.Replied? && oracles.mail == Sent
    requires oracles.parse(RawContent(oracles.chat.content)) == SyntaxError
    ensures var o := Handle(req, env, oracles);
            && o.response.statusCode == 200
            && o.effects[1] == MailSend(Email(ToEmail, FromEmail, FallbackSubject, MailTextLabel + FeedbackText(req)))
  {
    UnparseableReplyIsOther(oracles.chat.content, oracles.parse);
    UnlabelledSubject();
    SuccessIff(req, env, oracles);
  }
}

=== FILE: js_string.dfy ===
/** The parts of JavaScript string semantics the handler relies on:
    the ECMAScript white-space set and `String.prototype.trim`. */
module JsString {

  /** White space and line terminators as `String.prototype.trim` strips
      them (the WhiteSpace and LineTerminator productions of ECMA-262):
      TAB, VT, FF, SP, NBSP, ZWNBSP, every Unicode "Zs" character, LF, CR,
      LS and PS. */
  predicate IsWhiteSpace(c: char) {
    || c == '\t' || c == '\n' || c == '\U{000B}' || c == '\U{000C}' || c == '\r'
    || c == ' ' || c == '\U{00A0}' || c == '\U{1680}'
    || ('\U{2000}' <= c <= '\U{200A}')
    || c == '\U{2028}' || c == '\U{2029}' || c == '\U{202F}' || c == '\U{205F}'
    || c == '\U{3000}' || c == '\U{FEFF}'
  }

  /** Every character of `s` is white space (JavaScript calls such a
      string "blank"; the empty string is blank). */
  predicate IsBlank(s: string) {
    forall k :: 0 <= k < |s| ==> IsWhiteSpace(s[k])
  }

  /** `s` with its leading white space removed: the longest suffix of `s`
      that does not start with white space. */
  function TrimStart(s: string): (r: string)
    ensures |r| <= |s| && r == s[|s| - |r|..]
    ensures IsBlank(s[..|s| - |r|])
    ensures r == [] || !IsWhiteSpace(r[0])
    decreases |s|
  {
    if |s| > 0 && IsWhiteSpace(s[0]) then TrimStart(s[1..]) else s
  }

  /** `s` with its trailing white space removed: the longest prefix of `s`
      that does not end with white space. */
  function TrimEnd(s: string): (r: string)
    ensures |r| <= |s| && r == s[..|r|]
    ensures IsBlank(s[|r|..])
    ensures r == [] || !IsWhiteSpace(r[|r| - 1])
    decreases |s|
  {
    if |s| > 0 && IsWhiteSpace(s[|s| - 1]) then TrimEnd(s[..|s| - 1]) else s
  }

  /** `r` is the slice of `s` starting at `i` with only white space around it. */
  ghost predicate SliceBetweenBlanks(s: string, r: string, i: int) {
    0 <= i <= |s| - |r| && r == s[i..i + |r|] && IsBlank(s[..i]) && IsBlank(s[i + |r|..])
  }

  /** `String.prototype.trim`: the slice of `s` between its leading and its
      trailing white space. */
  function Trim(s: string): (r: string)
    ensures |r| <= |s|
    ensures exists i :: SliceBetweenBlanks(s, r, i)
    ensures r == [] || (!IsWhiteSpace(r[0]) && !IsWhiteSpace(r[|r| - 1]))
  {
    var t := TrimStart(s);
    var r := TrimEnd(t);
    TrimSlice(s, t, r);
    r
  }

  lemma TrimSlice(s: string, t: string, r: string)
    requires |t| <= |s| && t == s[|s| - |t|..] && IsBlank(s[..|s| - |t|])
    requires |r| <= |t| && r == t[..|r|] && IsBlank(t[|r|..])
    ensures SliceBetweenBlanks(s, r, |s| - |t|)
  {
    var i := |s| - |t|;
    assert s[i + |r|..] == t[|r|..];
  }

  /** Trimming leaves nothing exactly when the string is blank. */
  lemma TrimEmptyIffBlank(s: string)
    ensures Trim(s) == [] <==> IsBlank(s)
  {
    var r := Trim(s);
    var i :| SliceBetweenBlanks(s, r, i);
    if r == [] {
      forall k | 0 <= k < |s| ensures IsWhiteSpace(s[k]) {
        if k < i { assert s[k] == s[..i][k]; } else { assert s[k] == s[i..][k - i]; }
      }
    } else {
      assert r[0] == s[i];
    }
  }

  /** A string that starts with a non-white-space character is left alone
      by `TrimStart`. */
  lemma TrimStartNoLeading(s: string)
    requires |s| > 0 && !IsWhiteSpace(s[0])
    ensures TrimStart(s) == s
  {
  }

  /** Trailing white space is removed from the end of `a + b` exactly as
      from `b` alone, unless `b` is entirely white space, in which case the
      trimming continues into `a`. */
  lemma {:induction false} TrimEndAppend(a: string, b: string)
    ensures TrimEnd(a + b) == if TrimEnd(b) == [] then TrimEnd(a) else a + TrimEnd(b)
    decreases |b|
  {
    if |b| == 0 {
      assert a + b == a;
    } else if IsWhiteSpace(b[|b| - 1]) {
      assert (a + b)[..|a + b| - 1] == a + b[..|b| - 1];
      TrimEndAppend(a, b[..|b| - 1]);
    } else {
      assert (a + b)[|a + b| - 1] == b[|b| - 1];
    }
  }

  /** Trimming `word + " " + text`, where `word` neither starts nor ends
      with white space, keeps `word` and removes only the trailing white
      space of `text`, along with the separating space when nothing of
      `text` remains. */
  lemma {:induction false} TrimAfterWord(word: string, text: string)
    requires |word| > 0 && !IsWhiteSpace(word[0]) && !IsWhiteSpace(word[|word| - 1])
    ensures Trim(word + " " + text) ==
            if TrimEnd(text) == [] then word else word + " " + TrimEnd(text)
  {
    var x := word + " " + text;
    assert x[0] == word[0];
    TrimStartNoLeading(x);
    assert x == (word + " ") + text;
    TrimEndAppend(word + " ", text);
    assert TrimEnd(" ") == [];
    TrimEndAppend(word, " ");
    assert TrimEnd(word) == word;
  }

}

=== FILE: subject_line.dfy ===
/** The e-mail subject built from a classification: one bracketed tag per
    category, an optional bad-words tag, an `[other]` fallback, then the
    summary or a fixed fallback text, trimmed. */
module SubjectLine {
  import opened Wrappers
  import opened JsString

  const BadWordsLabel: string := "contains bad words"
  const BadWordsTag: string := "[contains bad words]"
  const OtherTag: string := "[other]"
  const DefaultSummary: string := "New Feedback"

  /** The labels the classification prompt allows the model to use. The
      reply is not checked against them. */
  const Vocabulary: seq<string> :=
    ["bullying", "complaint", "suggestions", "praise", "administrative", "other"]

  /** The tag of one category: the category between square brackets. */
  function Tag(category: string): string {
    "[" + category + "]"
  }

  /** A tag is two characters longer than its category, which reads back
      from between the brackets. */
  lemma TagShape(category: string)
    ensures var t := Tag(category);
            |t| == |category| + 2 && t[0] == '[' && t[|t| - 1] == ']' && t[1..|t| - 1] == category
  {
  }

  /** The tags of all categories, in order, joined without separator
      (``categories.map(cat => `[${cat}]`).join('')``). */
  function Tags(categories: seq<string>): (r: string)
    ensures categories == [] <==> r == []
    ensures categories != [] ==> r[0] == '[' && r[|r| - 1] == ']'
    ensures |r| >= 2 * |categories|
  {
    if categories == [] then [] else Tag(categories[0]) + Tags(categories[1..])
  }

  /** The label part of the subject before the `[other]` fallback: the
      category tags followed by the bad-words tag when offensive. */
  function Labels(categories: seq<string>, offensive: bool): (r: string)
    ensures r == [] <==> categories == [] && !offensive
    ensures offensive ==> |r| >= |BadWordsTag| && r[|r| - |BadWordsTag|..] == BadWordsTag
    ensures r != [] ==> r[0] == '[' && r[|r| - 1] == ']'
  {
    Tags(categories) + if offensive then BadWordsTag else ""
  }

  /** The label part actually used: the labels, or `[other]` when they are
      the empty (falsy) string. */
  function Prefix(categories: seq<string>, offensive: bool): (r: string)
    ensures |r| >= 2 && r[0] == '[' && r[|r| - 1] == ']'
  {
    var labels := Labels(categories, offensive);
    if labels == [] then OtherTag else labels
  }

  /** The text after the labels: the summary, or `New Feedback` when the
      summary is the empty (falsy) string. */
  function SummaryText(summary: string): (r: string)
    ensures r != []
    ensures summary != [] ==> r == summary
  {
    if summary == [] then DefaultSummary else summary
  }

  /** The subject line: the prefix, a space and the summary text, trimmed.
      Since the prefix always starts with `[` and ends with `]`, trimming
      only removes white space at the end of the summary text; a summary
      that is nothing but white space leaves the bare prefix. */
  function Subject(categories: seq<string>, offensive: bool, summary: string): (r: string)
    ensures var p := Prefix(categories, offensive);
            var body := TrimEnd(SummaryText(summary));
            r == if body == [] then p else p + " " + body
    ensures r != [] && r[0] == '['
  {
    SubjectShape(categories, offensive, summary);
    Trim(Prefix(categories, offensive) + " " + SummaryText(summary))
  }

  lemma SubjectShape(categories: seq<string>, offensive: bool, summary: string)
    ensures var p := Prefix(categories, offensive);
            var body := TrimEnd(SummaryText(summary));
            Trim(p + " " + SummaryText(summary)) == if body == [] then p else p + " " + body
  {
    TrimAfterWord(Prefix(categories, offensive), SummaryText(summary));
  }

  /** Tags of a concatenation are the concatenation of the tags: each
      category contributes exactly one tag, in input order, and duplicates
      are kept. */
  lemma {:induction false} TagsAppend(a: seq<string>, b: seq<string>)
    ensures Tags(a + b) == Tags(a) + Tags(b)
    decreases |a|
  {
    if a == [] {
      assert a + b == b;
    } else {
      assert (a + b)[0] == a[0];
      assert (a + b)[1..] == a[1..] + b;
      TagsAppend(a[1..], b);
    }
  }

  /** `[other]` is used exactly when there are no categories and the
      feedback is not offensive; otherwise the prefix is the labels. */
  lemma PrefixFallback(categories: seq<string>, offensive: bool)
    ensures Prefix(categories, offensive) ==
            if categories == [] && !offensive then OtherTag else Labels(categories, offensive)
  {
  }

  /** The subject always begins with its prefix. */
  lemma SubjectStartsWithPrefix(categories: seq<string>, offensive: bool, summary: string)
    ensures var p := Prefix(categories, offensive);
            |Subject(categories, offensive, summary)| >= |p|
            && Subject(categories, offensive, summary)[..|p|] == p
  {
    var p := Prefix(categories, offensive);
    var body := TrimEnd(SummaryText(summary));
    WordThenText(p, body);
  }

  lemma WordThenText(p: string, body: string)
    ensures var r := if body == [] then p else p + " " + body;
            |r| >= |p| && r[..|p|] == p
  {
    if body != [] {
      assert (p + " " + body)[..|p|] == p;
    }
  }

  lemma OffensiveOnlyPrefix()
    ensures Prefix([], true) == BadWordsTag
  {
    assert Labels([], true) == BadWordsTag by {
      assert Tags([]) == [];
    }
  }

  /** With no categories but offensive content the prefix is the bad-words
      tag alone, with no `[other]`. */
  lemma OffensiveWithoutCategories(summary: string)
    ensures Prefix([], true) == BadWordsTag
    ensures Subject([], true, summary)[..|BadWordsTag|] == BadWordsTag
  {
    OffensiveOnlyPrefix();
    SubjectStartsWithPrefix([], true, summary);
  }

  /** An empty summary is replaced by `New Feedback`, which has no
      surrounding white space, so it is the exact tail of the subject. */
  lemma EmptySummaryFallback(categories: seq<string>, offensive: bool)
    ensures Subject(categories, offensive, "") == Prefix(categories, offensive) + " " + DefaultSummary
  {
    assert TrimEnd(DefaultSummary) == DefaultSummary;
  }

  /** A summary without surrounding white space appears verbatim after a
      single space. */
  lemma TrimmedSummaryKept(categories: seq<string>, offensive: bool, summary: string)
    requires summary != [] && !IsWhiteSpace(summary[|summary| - 1])
    ensures Subject(categories, offensive, summary) == Prefix(categories, offensive) + " " + summary
  {
  }

  /** A summary made only of white space is truthy, so it does not trigger
      the `New Feedback` fallback; trimming then leaves the bare prefix. */
  lemma BlankSummaryDropsText(categories: seq<string>, offensive: bool, summary: string)
    requires summary != [] && IsBlank(summary)
    ensures Subject(categories, offensive, summary) == Prefix(categories, offensive)
  {
  }

  lemma ComplaintOffensivePrefix()
    ensures Prefix(["complaint"], true) == "[complaint][contains bad words]"
  {
    assert Tags(["complaint"]) == "[complaint]" by {
      assert Tag("complaint") == "[complaint]";
      assert ["complaint"][1..] == [];
    }
  }

  /** Worked example: one category, offensive, with a summary. */
  lemma SubjectExampleOffensive()
    ensures Subject(["complaint"], true, "broken locker") == "[complaint][contains bad words] broken locker"
  {
    var summary := "broken locker";
    ComplaintOffensivePrefix();
    assert summary[|summary| - 1] == 'r';
    TrimmedSummaryKept(["complaint"], true, summary);
    var p := Prefix(["complaint"], true);
    assert p + " " + summary == "[complaint][contains bad words] broken locker";
  }

  /** Without the offensive flag, a non-empty category list has its tags
      as prefix. */
  lemma PrefixOfCategories(categories: seq<string>)
    requires categories != []
    ensures Prefix(categories, false) == Tags(categories)
  {
    assert Labels(categories, false) == Tags(categories);
  }

  lemma TagsOfPair(a: string, b: string)
    ensures Tags([a, b]) == Tag(a) + Tag(b)
  {
    assert [a, b][1..] == [b];
    assert [b][1..] == [];
  }

  lemma PraiseAdministrativePrefix()
    ensures Prefix(["praise", "administrative"], false) == "[praise][administrative]"
  {
    PrefixOfCategories(["praise", "administrative"]);
    TagsOfPair("praise", "administrative");
    assert Tag("praise") + Tag("administrative") == "[praise][administrative]";
  }

  /** The subject once its prefix and summary text are known, when the
      text does not end in white space. */
  lemma SubjectOfParts(categories: seq<string>, offensive: bool, summary: string, p: string, text: string)
    requires Prefix(categories, offensive) == p
    requires SummaryText(summary) == text && !IsWhiteSpace(text[|text| - 1])
    ensures Subject(categories, offensive, summary) == p + " " + text
  {
  }

  /** Worked example: two categories, not offensive, empty summary. */
  lemma SubjectExampleDefaultSummary()
    ensures Subject(["praise", "administrative"], false, "") == "[praise][administrative] New Feedback"
  {
    PraiseAdministrativePrefix();
    assert DefaultSummary[|DefaultSummary| - 1] == 'k';
    SubjectOfParts(["praise", "administrative"], false, "", "[praise][administrative]", DefaultSummary);
    PraiseAdministrativeText();
  }

  lemma PraiseAdministrativeText()
    ensures "[praise][administrative]" + " " + DefaultSummary == "[praise][administrative] New Feedback"
  {
  }

  /** The subject of feedback without labels or summary. */
  const FallbackSubject: string := OtherTag + " " + DefaultSummary

  /** With no labels and no summary the subject is `[other] New Feedback`;
      a lone `other` category gives the same subject. */
  lemma UnlabelledSubject()
    ensures Subject([], false, "") == FallbackSubject
    ensures Subject(["other"], false, "") == FallbackSubject
    ensures FallbackSubject == "[other] New Feedback"
  {
    NoCategoriesSubject();
    OtherCategorySubject();
    FallbackSubjectSpelled();
  }

  lemma FallbackSubjectSpelled()
    ensures FallbackSubject == "[other] New Feedback"
  {
  }

  lemma NoCategoriesSubject()
    ensures Subject([], false, "") == FallbackSubject
  {
    assert DefaultSummary[|DefaultSummary| - 1] == 'k';
    assert Prefix([], false) == OtherTag by {
      assert Labels([], false) == [];
    }
    SubjectOfParts([], false, "", OtherTag, DefaultSummary);
  }

  lemma OtherCategorySubject()
    ensures Subject(["other"], false, "") == FallbackSubject
  {
    assert DefaultSummary[|DefaultSummary| - 1] == 'k';
    assert Prefix(["other"], false) == OtherTag by {
      PrefixOfCategories(["other"]);
      assert ["other"][1..] == [];
      assert Tags(["other"]) == Tag("other") + Tags([]);
    }
    SubjectOfParts(["other"], false, "", OtherTag, DefaultSummary);
  }

  // ---------------------------------------------------------------------
  // Reading the tags back: each category becomes exactly one tag.

  /** The index of the first `]` in `s` at or after `i`, if any. */
  function FindClose(s: string, i: nat): (r: Option<nat>)
    requires i <= |s|
    ensures r.Some? ==> i <= r.value < |s| && s[r.value] == ']'
                        && forall k :: i <= k < r.value ==> s[k] != ']'
    ensures r.None? ==> forall k :: i <= k < |s| ==> s[k] != ']'
    decreases |s| - i
  {
    if i == |s| then None else if s[i] == ']' then Some(i) else FindClose(s, i + 1)
  }

  /** Splits a run of tags `[c1][c2]...` back into its categories; `None`
      when `s` is not such a run. */
  function ParseTags(s: string): Option<seq<string>>
    decreases |s|
  {
    if s == [] then Some([])
    else if s[0] != '[' then None
    else match FindClose(s, 1)
      case None => None
      case Some(j) =>
        match ParseTags(s[j + 1..])
        case None => None
        case Some(rest) => Some([s[1..j]] + rest)
  }

  predicate NoCloseBracket(category: string) {
    forall k :: 0 <= k < |category| ==> category[k] != ']'
  }

  /** Round trip: the tags of categories without `]` parse back to exactly
      those categories, in order and with duplicates. */
  lemma {:induction false} ParseTagsOfTags(categories: seq<string>)
    requires forall i :: 0 <= i < |categories| ==> NoCloseBracket(categories[i])
    ensures ParseTags(Tags(categories)) == Some(categories)
    decreases |categories|
  {
    if categories != [] {
      var c := categories[0];
      var rest := Tags(categories[1..]);
      var s := Tags(categories);
      assert s == Tag(c) + rest;
      FindCloseAfterTag(c, rest);
      TagParts(c, rest);
      ParseTagsOfTags(categories[1..]);
      assert [c] + categories[1..] == categories;
    }
  }

  /** The first `]` after the opening bracket of a tag is its own closing
      bracket when the category holds no `]`. */
  lemma FindCloseAfterTag(c: string, rest: string)
    requires NoCloseBracket(c)
    ensures FindClose(Tag(c) + rest, 1) == Some(|c| + 1)
  {
    var s := Tag(c) + rest;
    assert s[|c| + 1] == ']';
    assert forall k :: 1 <= k < |c| + 1 ==> s[k] == c[k - 1];
  }

  lemma TagParts(c: string, rest: string)
    ensures (Tag(c) + rest)[1..|c| + 1] == c
    ensures (Tag(c) + rest)[|c| + 2..] == rest
  {
  }

  /** Converse round trip: whatever `ParseTags` accepts is reproduced
      exactly by `Tags`, and none of the categories read holds a `]`. */
  lemma {:induction false} TagsOfParseTags(s: string)
    requires ParseTags(s).Some?
    ensures Tags(ParseTags(s).value) == s
    ensures forall i :: 0 <= i < |ParseTags(s).value| ==> NoCloseBracket(ParseTags(s).value[i])
    decreases |s|
  {
    if s != [] {
      var j := FindClose(s, 1).value;
      var c := s[1..j];
      var tail := s[j + 1..];
      var rest := ParseTags(tail).value;
      var cats := ParseTags(s).value;
      assert cats == [c] + rest;
      TagsOfParseTags(tail);
      assert NoCloseBracket(c);
      assert cats[0] == c && cats[1..] == rest;
      assert Tags(cats) == Tag(c) + Tags(rest);
      SplitAtClose(s, j);
    }
  }

  lemma SplitAtClose(s: string, j: nat)
    requires 1 <= j < |s| && s[0] == '[' && s[j] == ']'
    ensures s == Tag(s[1..j]) + s[j + 1..]
  {
  }

  lemma VocabularyLabelHasNoCloseBracket(category: string)
    requires category in Vocabulary
    ensures NoCloseBracket(category)
  {
    assert category == "bullying" || category == "complaint" || category == "suggestions"
        || category == "praise" || category == "administrative" || category == "other";
  }

  /** Categories drawn from the prompt's vocabulary always read back from
      their tags. */
  lemma VocabularyRoundTrips(categories: seq<string>)
    requires forall i :: 0 <= i < |categories| ==> categories[i] in Vocabulary
    ensures ParseTags(Tags(categories)) == Some(categories)
  {
    forall i | 0 <= i < |categories| ensures NoCloseBracket(categories[i]) {
      VocabularyLabelHasNoCloseBracket(categories[i]);
    }
    ParseTagsOfTags(categories);
  }

  /** The bad-words tag is the tag of the category `contains bad words`. */
  lemma BadWordsTagIsTag()
    ensures BadWordsTag == Tag(BadWordsLabel) && NoCloseBracket(BadWordsLabel)
  {
  }

  /** Reading the labels back gives the categories, in order and with
      duplicates, followed by `contains bad words` exactly when the
      feedback is offensive: the bad-words tag comes after every category
      tag and is absent otherwise. */
  lemma LabelsReadBack(categories: seq<string>, offensive: bool)
    requires forall i :: 0 <= i < |categories| ==> NoCloseBracket(categories[i])
    ensures ParseTags(Labels(categories, offensive))
            == Some(categories + if offensive then [BadWordsLabel] else [])
  {
    var extra: seq<string> := if offensive then [BadWordsLabel] else [];
    BadWordsTagIsTag();
    assert Tags([BadWordsLabel]) == BadWordsTag by {
      assert [BadWordsLabel][1..] == [];
    }
    assert Tags(extra) == if offensive then BadWordsTag else "";
    TagsAppend(categories, extra);
    var all := categories + extra;
    assert forall i :: 0 <= i < |all| ==> NoCloseBracket(all[i]) by {
      forall i | 0 <= i < |all| ensures NoCloseBracket(all[i]) {
        if i >= |categories| { assert all[i] == BadWordsLabel; }
      }
    }
    ParseTagsOfTags(all);
  }
}

=== FILE: wrappers.dfy ===
/** Wrappers used across the model: an optional value
    (a JavaScript property that may be `undefined`) and a result that is
    either a value or a thrown error. */
module Wrappers {

  datatype Option<+T> = None | Some(value: T) {

    /** The wrapped value, or `default` when there is none (JavaScript's
        destructuring default `{ x = default } = obj`). */
    function GetOr(default: T): T {
      match this
      case Some(v) => v
      case None => default
    }
  }

  datatype Result<+R, +E> = Success(value: R) | Failure(error: E)
}
